=== FILE: README.md ===
# el_commutador: a Dafny model

`el_commutador.py` drives a motorised commutator. A stepper motor is told, over
an ASCII serial protocol, to follow the heading of a tracked body. The heading
is read live from a CSV file of orientation samples. This project models the
sequential logic at the heart of that program and proves properties of it:

- **The stepper controller** (`StepperController`) as a state machine. Each
  public method is one atomic transition. It changes the controller's record
  (`steps_per_turn`, `step_time`, microstep mode, the commanded `position`, its
  motor-step copy, `sense`) and appends commands to a log of everything written
  to the port. The log's bytes are the concatenation of the commands' encodings
  (`R`, `S`, `G`, `M`, `N`, `P<n>X`, `T<t>X`, `Q`). The four-byte reply to a
  position query is an input, read as a signed little-endian integer.
- **The orientation reader** (`CSV_source`). A row is read up to its newline,
  and its first comma-separated field is dropped. Each row's yaw moves the
  accumulated rotation by `((yaw - last + π) % 2π) - π`, so the rotation keeps
  growing across the ±π seam.
- **The synchronisation loop** (`App`). One pass of `_update_loop` works out the
  target `offset + offset_offset + source.position` and queries the motor. It
  re-commands the motor when it is more than π/16 off, then brings the step time
  to the requested one. The collaborator actions are modelled too: the offset
  slider, "reset slider" and choosing a new CSV file.

π is an abstract positive real (`Angle.Pi`); nothing depends on its value.
Python's float `%` is modelled through `Floor`, and `int()` as truncation toward
zero. Python integers are unbounded, like Dafny's, so no wrap-around is modelled.
The one fixed width is the four-byte reply.

Modules, in dependency order: `Wrappers` (Option), `Text` (splitting at a
separator), `Decimal` (integer text), `LittleEndian` (signed byte codec),
`Angle` (π, `%`, wrap, truncation), `Protocol` (commands and their bytes),
`Stepper` (the controller), `Orientation` (row reading and unwrapping), `Sync`
(the application's decision logic).

Three quirks of the code are kept as written:

- `set_position` truncates toward zero with `int(...)`; it does not round. It
  applies the sense to the already-truncated step count (lines 67-68).
- `_assign_source` resets the motor and the source but keeps `offset_offset`
  (lines 303-306). After a source swap the target is therefore the
  accumulated offsets.
- The unwrap increment lies in [-π, π), including -π and excluding π, because Python's `%` with
  a positive modulus lands in [0, 2π) (line 130).

## Model

| member | source | states |
|---|---|---|
| Text.SplitAtFirst | el_commutador.py:115-117 | Cutting at the first separator succeeds exactly when the separator occurs; the pieces rebuild the input, and the first piece holds no separator |
| Text.Split | el_commutador.py:118 | `str.split(sep)` yields at least one field, no field holds the separator, and joining the fields with it gives the input back |
| Text.SplitJoin | el_commutador.py:118 | Splitting a join of separator-free fields recovers exactly those fields |
| Decimal.FromInt | el_commutador.py:68 | The decimal text of an integer is non-empty, has a leading minus exactly for negatives, and never contains the `X` terminator |
| Decimal.ParseFromInt | el_commutador.py:73 | Every integer's decimal text reads back as that integer |
| Decimal.FromIntInjective | el_commutador.py:68 | Distinct integers have distinct decimal texts |
| LittleEndian.Signed | el_commutador.py:94 | A signed little-endian reading of n bytes lies in [-256^n/2, 256^n/2) |
| LittleEndian.SignedOfEncode | el_commutador.py:94 | Encoding any value in range to n bytes and reading it back gives the value |
| LittleEndian.EncodeOfSigned | el_commutador.py:94 | Re-encoding the reading of any byte string gives the same bytes, so the reading is a bijection |
| LittleEndian.SignedInjective | el_commutador.py:94 | Two byte strings of one length that read as the same number are equal |
| LittleEndian.Word32Range | el_commutador.py:94 | A four-byte reading lies in [-2^31, 2^31) |
| LittleEndian.Word32Value | el_commutador.py:94 | A four-byte reply reads least significant byte first and the top bit of the last byte is the sign: b0 + 2^8 b1 + 2^16 b2 + 2^24 b3, minus 2^32 when b3 >= 0x80 |
| LittleEndian.EncodeWord | el_commutador.py:94 | Every value in [-2^31, 2^31) has four bytes that read back as it |
| Angle.PyMod | el_commutador.py:130 | Python's float `%` by a positive modulus lands in [0, m) |
| Angle.PyModQuotient | el_commutador.py:130 | The remainder differs from the dividend by a whole number of moduli |
| Angle.PyModUnique | el_commutador.py:130 | Any value in [0, m) that differs from x by whole moduli is x % m |
| Angle.PyModPeriodic | el_commutador.py:130 | Adding whole moduli leaves the remainder unchanged |
| Angle.Wrap | el_commutador.py:130 | The unwrap increment lies in [-π, π) |
| Angle.WrapTurns | el_commutador.py:130 | The unwrap increment differs from the raw yaw change by a whole number of turns |
| Angle.WrapIdentity | el_commutador.py:130 | A change already in [-π, π) passes through unchanged |
| Angle.WrapPeriodic | el_commutador.py:130 | Whole turns added to the yaw change do not alter the increment |
| Angle.Trunc | el_commutador.py:67 | Python's `int()` on a float keeps the sign and lies within one of x, toward zero |
| Protocol.ParseEncodeAll | el_commutador.py:37-39 | The bytes of any command sequence decode back to exactly that sequence, so the stream is unambiguous |
| Stepper.Send | el_commutador.py:37-39 | A write appends its commands' bytes to the wire after everything sent before and changes nothing else |
| Stepper.Reset | el_commutador.py:41-44 | `reset` appends `R` and zeroes the commanded position; the motor-step copy and everything else are left as they were |
| Stepper.Stop | el_commutador.py:46-48 | `stop` appends `S` and changes no state |
| Stepper.Resume | el_commutador.py:50-52 | `resume` appends `G` and changes no state |
| Stepper.PosReset | el_commutador.py:54-61 | `pos_reset` appends `R`, then `M` exactly when built for microstepping, then `T<old step time>X`; afterwards the step time is unchanged, the position is zero and steps per turn agree with the mode |
| Stepper.MotorSteps | el_commutador.py:67 | An angle in motor steps, `steps_per_turn * pos / 2π`, is truncated toward zero: within one step below it for non-negative values, within one step above it for negative ones |
| Stepper.SetPosition | el_commutador.py:63-68 | `set_position` records the angle and its step count truncated toward zero, appends `P<sense * steps>X`, and changes nothing else |
| Stepper.SetStepTime | el_commutador.py:70-74 | `set_step_time(t)` appends `T<t>X`, sets the step time to t, and changes nothing else |
| Stepper.ActivateMicrostep | el_commutador.py:76-81 | Microstepping on means 3200 steps per turn and appends exactly `M`; nothing else changes |
| Stepper.DeactivateMicrostep | el_commutador.py:83-88 | Microstepping off means 200 steps per turn and appends exactly `N`; nothing else changes |
| Stepper.QueryPosition | el_commutador.py:90-94 | A query appends `Q`, reads the reply as a step count in [-2^31, 2^31), and reports the angle whose product with steps per turn is sense * steps * 2π |
| Stepper.StepsAngleInjective | el_commutador.py:94 | Distinct step counts convert to distinct angles |
| Stepper.QueryInjective | el_commutador.py:90-94 | Distinct replies to a query are reported as distinct angles |
| Stepper.WireDecodes | el_commutador.py:37-39 | Whatever the controller has written decodes back to the exact command log |
| Stepper.Init | el_commutador.py:13-27 | The constructor sends reset, microstep off, microstep on if requested, then step time 312; it ends at 200 or 3200 steps per turn to match, with zero position |
| Stepper.InitWire | el_commutador.py:13-27 | A new controller has written exactly `RN`, then `M` when microstepping, then `T312X` |
| Stepper.HalfTurnSteps | el_commutador.py:63-68 | Commanding π with sense 1 sends `P100X` at full steps and `P1600X` when microstepping |
| Stepper.QueryAfterMove | el_commutador.py:63-94 | Once the motor stands where `set_position(pos)` sent it, the query reports pos truncated toward zero to a whole step, within one step angle |
| Stepper.Apply | el_commutador.py:41-94 | Every public operation keeps steps per turn in step with the microstep mode, keeps the sense, and only appends to the port log |
| Stepper.Run | el_commutador.py:11-94 | Over any sequence of calls, steps per turn stays in {200, 3200} in step with the mode, the sense never changes, and the log grows by at least one command per call, keeping its prefix |
| Orientation.ReadRow | el_commutador.py:112-117 | A row is the characters before the first newline, which is consumed and not kept; without a newline everything stays buffered |
| Orientation.DataFields | el_commutador.py:118 | Dropping the first field leaves one field fewer than the split, none holding a comma |
| Orientation.DataFieldsOfRow | el_commutador.py:118 | A row written as a timestamp field and data fields yields exactly the data fields |
| Orientation.Feed | el_commutador.py:126-132 | The first row only sets the reference yaw; each later row moves the rotation by an amount in [-π, π) and becomes the reference |
| Orientation.FeedAll | el_commutador.py:126-132 | After a run of rows the reference is the last row's yaw; an empty run changes nothing |
| Orientation.FeedAllAppend | el_commutador.py:128-132 | Feeding rows in two batches gives the same state as feeding them at once |
| Orientation.FeedAllIsSum | el_commutador.py:128-132 | The accumulated rotation is its start plus the sum of the increments between consecutive yaws |
| Orientation.IncrementsBound | el_commutador.py:130-132 | The sum of n increments lies in [-nπ, nπ) |
| Orientation.FeedAllTurns | el_commutador.py:126-132 | The accumulated rotation equals the raw yaw change from the reference up to whole turns, so it always lifts the heading |
| Orientation.FeedAllTracksHeading | el_commutador.py:126-132 | When each change of the true heading between rows lies in [-π, π), the accumulated rotation is the true total rotation, with no jump at ±π |
| Orientation.OpenCsv | el_commutador.py:100-102 | A new CSV source follows the named file, starts at rotation zero and has no reference yaw yet, so its first row only sets the reference (line 126) |
| Sync.Tick | el_commutador.py:267-293 | One pass targets offset + offset_offset + source position, sends `Q`, then a move to that target exactly when the reported angle is more than π/16 off, then a step-time command exactly when the step time differs; afterwards the step time is the requested one, the commanded position and its step count are the target's when a move was sent and unchanged otherwise, the sense, steps per turn and microstep mode are kept, and only the controller has changed |
| Sync.TickMovesIff | el_commutador.py:277-280 | A pass sends one move command if the motor is more than π/16 from the target, and none otherwise |
| Sync.HysteresisAtZero | el_commutador.py:277-280 | From a motor reporting zero, a pass moves exactly when the target is more than π/16 away |
| Sync.SpeedSettles | el_commutador.py:290-291 | The pass after any pass sends no step-time command while the requested speed is unchanged |
| Sync.TickThenSettled | el_commutador.py:270-291 | Two passes chained: after a pass that re-commanded the motor, a reply carrying the commanded step count makes the next pass send no move while the target stays put |
| Sync.SettledTickIsQuiet | el_commutador.py:277-280 | Once the motor has reached a commanded target that has not moved, the next pass sends no move, since one step is far below π/16 |
| Sync.SetManualOffset | el_commutador.py:221-224 | The offset slider sets the offset to slider * π, moving the target by the change and nothing else |
| Sync.Recenter | el_commutador.py:235-237 | "Reset slider" folds the offset into offset_offset and zeroes it, leaving the target where it was |
| Sync.AssignSource | el_commutador.py:303-306 | Choosing a file applies `pos_reset` to the controller (so the log continues with `R`, `M` when built for microstepping and `T<old step time>X`; step time, sense and microstep choice kept; position zero) and follows a fresh CSV source at zero; the offsets are kept, so the target becomes the offsets alone |
| Sync.Launch | el_commutador.py:155-183 | Starting the application builds the default controller (sense 1, microstepping) and makes one query; it follows the synthetic source at zero when no file is given and a fresh CSV source on the given file otherwise, sets both offsets to zero and keeps the requested step time |

## Left out

- Serial I/O (`_connect`, `Serial`, `write`, `read`): writes are appended to a command log, and the query reply is a four-byte input. A serial port opened without a timeout always hands back the four bytes asked for.
- Threads and `threading.Lock`: each controller method is one atomic step. The infinite reader and update loops become a fold over finite rows and a single pass.
- The Tk window, canvas drawing (cos/sin), labels, the file dialog (`choose_csv`), the stop/resume buttons' relabelling, `exit_routine`, `run_commutator` and `__main__`: user interface and bootstrap. What the buttons call (`stop`, `resume`, `reset`) is modelled in `Stepper`.
- `Dummy_source`'s random walk (`np.random`, `time.sleep`): only its position is modelled, as a given real.
- Float parsing of the CSV fields and `scipy`'s quaternion-to-yaw conversion: yaws are given reals.
- The file tail's seek to the end and its skipping of everything up to the next newline (the rest of a partial row, or the whole next row when the file ended on a row boundary): I/O. `ReadRow` models the reading of one row from whatever is buffered.
- IEEE floating-point rounding, including the slider's rps-to-step-time conversion (lines 209 and 217-218): reals with an abstract π are used, and `Sync.Launch` takes the requested step time as a parameter.
- The motor's own motion between passes: the angle a pass reads comes from an arbitrary four-byte reply.
- Stepper.Init: the attributes the constructor assigns only after its first writes (`_position_motor` at line 25, `sense` at line 27, and `step_time` until line 26) are present in the model from the start, with `_position_motor` and `step_time` at zero; no write in between reads them, so the end state and the bytes are the same.
- Stepper.Init: the sense is +1 or -1 (`Stepper.Sense`). The constructor accepts any number, and line 68's outer `int()` only matters for other values; the program's only caller (`App`, line 156) uses the default 1. `Stepper.QueryInjective` relies on this restriction.
- Threads: `reset`, `stop`, `resume` and `pos_reset` are modelled as atomic although the source does not lock them (lines 41-61). `pos_reset` writes `R` without the lock and then takes it separately for `M` and for `T`, so the update thread's `Q` or `P` can land between these writes.
- Sync.Recenter: the model folds two steps into one. `reset_manual_offset` raises `offset_offset` (line 236). `offset` is zeroed only when `offset_slider.set(0)` (line 237) runs `target_command` (lines 221-223). In between, a pass of `_update_loop` (lines 270-280) can read a target shifted by `offset` and send a move to it.

=== FILE: angle.dfy ===
/** Real-valued angle arithmetic: Python's float `%`, the wrap into [-π, π)
    used by the orientation unwrapper, and `int()` truncation. */
module Angle {

  type PositiveReal = r: real | r > 0.0 witness 1.0

  /** π, left abstract: the model relies only on its being a positive real. */
  const Pi: PositiveReal

  /** One full turn, 2π. */
  const Turn: real := 2.0 * Pi

  lemma MulMonotone(a: real, b: real, m: real)
    requires m > 0.0 && a <= b
    ensures a * m <= b * m
  {
  }

  lemma MulStrict(a: real, b: real, m: real)
    requires m > 0.0 && a < b
    ensures a * m < b * m
  {
  }

  /** `m * floor(x / m)` is the largest multiple of `m` not above `x`. */
  lemma FloorBounds(x: real, m: real)
    requires m > 0.0
    ensures m * (x / m).Floor as real <= x < m * (x / m).Floor as real + m
  {
    var q := x / m;
    var k := q.Floor as real;
    assert q * m == x;
    MulMonotone(k, q, m);
    MulStrict(q, k + 1.0, m);
    assert (k + 1.0) * m == k * m + m;
    assert m * k == k * m;
    assert q < k + 1.0;
    assert x < k * m + m;
  }

  /** Python's float `x % m` for a positive modulus, defined through floor. */
  function PyMod(x: real, m: real): (r: real)
    requires m > 0.0
    ensures 0.0 <= r < m
  {
    FloorBounds(x, m);
    x - m * (x / m).Floor as real
  }

  /** The remainder differs from `x` by a whole number `k` of moduli. */
  lemma PyModQuotient(x: real, m: real) returns (k: int)
    requires m > 0.0
    ensures x == PyMod(x, m) + k as real * m
  {
    k := (x / m).Floor;
  }

  /** The remainder is determined by those two facts: any `y` in [0, m) that
      differs from `x` by a whole number `k` of moduli is `x % m`. */
  lemma PyModUnique(x: real, m: real, y: real, k: int)
    requires m > 0.0
    requires 0.0 <= y < m
    requires x == y + k as real * m
    ensures PyMod(x, m) == y
  {
    assert x / m == y / m + k as real;
    assert 0.0 <= y / m < 1.0 by {
      assert y / m * m == y;
      if y / m >= 1.0 {
        MulMonotone(1.0, y / m, m);
      }
    }
    assert (x / m).Floor == k;
  }

  /** Adding whole moduli does not change the remainder. */
  lemma PyModPeriodic(x: real, m: real, k: int)
    requires m > 0.0
    ensures PyMod(x + k as real * m, m) == PyMod(x, m)
  {
    var y := PyMod(x, m);
    var j := PyModQuotient(x, m);
    assert (j + k) as real * m == j as real * m + k as real * m;
    PyModUnique(x + k as real * m, m, y, j + k);
  }

  /** `((d + π) % 2π) - π`: the signed angle equivalent to `d`, in [-π, π). */
  function Wrap(d: real): (r: real)
    ensures -(Pi as real) <= r < Pi
  {
    PyMod(d + Pi, Turn) - Pi
  }

  /** The wrapped angle differs from `d` by a whole number `k` of turns. */
  lemma WrapTurns(d: real) returns (k: int)
    ensures d == Wrap(d) + k as real * Turn
  {
    k := PyModQuotient(d + Pi, Turn);
  }

  /** An angle already in [-π, π) is left alone. */
  lemma WrapIdentity(d: real)
    requires -(Pi as real) <= d < Pi
    ensures Wrap(d) == d
  {
    PyModUnique(d + Pi, Turn, d + Pi, 0);
  }

  /** Adding whole turns does not change the wrapped angle. */
  lemma WrapPeriodic(d: real, k: int)
    ensures Wrap(d + k as real * Turn) == Wrap(d)
  {
    PyModPeriodic(d + Pi, Turn, k);
    assert d + k as real * Turn + Pi == (d + Pi) + k as real * Turn;
  }

  /** WrapPeriodic for an angle given as `d` plus whole turns. */
  lemma WrapShifted(e: real, d: real, j: int)
    requires e == d + j as real * Turn
    ensures Wrap(e) == Wrap(d)
  {
    WrapPeriodic(d, j);
  }

  /** Whole turns subtract. */
  lemma TurnsDifference(a: int, b: int)
    ensures (a - b) as real * Turn == a as real * Turn - b as real * Turn
  {
  }

  /** Python's `int(x)` on a float: truncation toward zero. */
  function Trunc(x: real): (r: int)
    ensures 0.0 <= x ==> 0 <= r && r as real <= x < r as real + 1.0
    ensures x < 0.0 ==> r <= 0 && r as real - 1.0 < x <= r as real
  {
    if x >= 0.0 then x.Floor else -((-x).Floor)
  }
}

=== FILE: decimal.dfy ===
/** Decimal text of integers, as Python's f-string `{n}` writes them for the
    `P<n>X` and `T<n>X` commands, and the reading a receiver applies to it. */
module Decimal {
  import opened Wrappers

  predicate IsDigit(c: char) { '0' <= c <= '9' }

  predicate AllDigits(s: string) { forall i :: 0 <= i < |s| ==> IsDigit(s[i]) }

  function DigitChar(d: nat): (c: char)
    requires d < 10
    ensures IsDigit(c)
  {
    (('0' as int) + d) as char
  }

  function DigitValue(c: char): (d: nat)
    requires IsDigit(c)
    ensures d < 10
  {
    (c as int) - ('0' as int)
  }

  /** Digits of `n`, most significant first, without leading zeros. */
  function NatDigits(n: nat): (s: string)
    ensures |s| >= 1 && AllDigits(s)
    ensures s[0] == '0' ==> n == 0
  {
    if n < 10 then [DigitChar(n)] else NatDigits(n / 10) + [DigitChar(n % 10)]
  }

  /** The value of a string of digits read most significant first. */
  function DigitsValue(s: string): nat
    requires AllDigits(s)
  {
    if |s| == 0 then 0 else 10 * DigitsValue(s[..|s| - 1]) + DigitValue(s[|s| - 1])
  }

  /** `str(i)` for a Python int: an optional minus sign, then the digits of |i|. */
  function FromInt(i: int): (s: string)
    ensures |s| >= 1
    ensures 'X' !in s && ',' !in s && '\n' !in s
    ensures s[0] == '-' <==> i < 0
  {
    if i < 0 then "-" + NatDigits(-i) else NatDigits(i)
  }

  /** Reads an optionally signed decimal integer; None unless the whole string is one. */
  function ParseInt(s: string): (r: Option<int>)
    ensures r.Some? ==> |s| >= 1
  {
    if |s| >= 2 && s[0] == '-' && AllDigits(s[1..]) then Some(0 - DigitsValue(s[1..]) as int)
    else if |s| >= 1 && AllDigits(s) then Some(DigitsValue(s))
    else None
  }

  lemma {:induction false} NatDigitsValue(n: nat)
    ensures DigitsValue(NatDigits(n)) == n
  {
    if n >= 10 {
      var s := NatDigits(n);
      NatDigitsValue(n / 10);
      assert s[..|s| - 1] == NatDigits(n / 10);
    }
  }

  /** Round trip: the decimal text of every integer reads back as that integer. */
  lemma ParseFromInt(i: int)
    ensures ParseInt(FromInt(i)) == Some(i)
  {
    var s := FromInt(i);
    if i < 0 {
      assert s[0] == '-' && s[1..] == NatDigits(-i);
      NatDigitsValue(-i);
      assert ParseInt(s) == Some(0 - DigitsValue(s[1..]) as int);
    } else {
      assert s == NatDigits(i) && IsDigit(s[0]);
      NatDigitsValue(i);
      assert ParseInt(s) == Some(DigitsValue(s) as int);
    }
  }

  /** Two integers never share a decimal text. */
  lemma FromIntInjective(i: int, j: int)
    requires FromInt(i) == FromInt(j)
    ensures i == j
  {
    ParseFromInt(i);
    ParseFromInt(j);
  }
}

=== FILE: little_endian.dfy ===
/** Python's `int.from_bytes(b, 'little', signed=True)` and its inverse
    `int.to_bytes(n, 'little', signed=True)`, over bytes as integers 0..255. */
module LittleEndian {

  type byte = x: int | 0 <= x < 256

  function Pow256(n: nat): (r: int)
    ensures r >= 1
  {
    if n == 0 then 1 else 256 * Pow256(n - 1)
  }

  /** Unsigned value, least significant byte first. */
  function Unsigned(b: seq<byte>): nat
  {
    if |b| == 0 then 0 else b[0] + 256 * Unsigned(b[1..])
  }

  lemma {:induction false} UnsignedBound(b: seq<byte>)
    ensures Unsigned(b) < Pow256(|b|)
  {
    if |b| > 0 {
      UnsignedBound(b[1..]);
    }
  }

  /** Two's-complement reading of `b`: the top half of the unsigned range is negative. */
  function Signed(b: seq<byte>): (n: int)
    ensures -Pow256(|b|) <= 2 * n < Pow256(|b|)
  {
    UnsignedBound(b);
    var u := Unsigned(b);
    if 2 * u >= Pow256(|b|) then u - Pow256(|b|) else u
  }

  /** The `n` low bytes of `v`, least significant first. */
  function EncodeUnsigned(v: nat, n: nat): (b: seq<byte>)
    ensures |b| == n
  {
    if n == 0 then [] else [v % 256] + EncodeUnsigned(v / 256, n - 1)
  }

  /** `v.to_bytes(n, 'little', signed=True)` for a `v` that fits in `n` bytes. */
  function EncodeSigned(v: int, n: nat): (b: seq<byte>)
    requires -Pow256(n) <= 2 * v < Pow256(n)
    ensures |b| == n
  {
    EncodeUnsigned(if v < 0 then v + Pow256(n) else v, n)
  }

  lemma {:induction false} UnsignedOfEncode(v: nat, n: nat)
    requires v < Pow256(n)
    ensures Unsigned(EncodeUnsigned(v, n)) == v
  {
    if n > 0 {
      var b := EncodeUnsigned(v, n);
      assert b[1..] == EncodeUnsigned(v / 256, n - 1);
      UnsignedOfEncode(v / 256, n - 1);
    }
  }

  lemma {:induction false} EncodeOfUnsigned(b: seq<byte>)
    ensures EncodeUnsigned(Unsigned(b), |b|) == b
  {
    if |b| > 0 {
      var u := Unsigned(b);
      assert u % 256 == b[0] && u / 256 == Unsigned(b[1..]);
      EncodeOfUnsigned(b[1..]);
      assert b == [b[0]] + b[1..];
    }
  }

  /** Decoding an encoded value gives the value back. */
  lemma SignedOfEncode(v: int, n: nat)
    requires -Pow256(n) <= 2 * v < Pow256(n)
    ensures Signed(EncodeSigned(v, n)) == v
  {
    UnsignedOfEncode(if v < 0 then v + Pow256(n) else v, n);
  }

  /** Encoding a decoded reply gives the same bytes back, so the reading is a bijection. */
  lemma EncodeOfSigned(b: seq<byte>)
    ensures EncodeSigned(Signed(b), |b|) == b
  {
    UnsignedBound(b);
    EncodeOfUnsigned(b);
  }

  /** Replies of one length that read as the same number are the same bytes. */
  lemma SignedInjective(a: seq<byte>, b: seq<byte>)
    requires |a| == |b| && Signed(a) == Signed(b)
    ensures a == b
  {
    EncodeOfSigned(a);
    EncodeOfSigned(b);
  }

  lemma Pow256Four()
    ensures Pow256(4) == 0x1_0000_0000
  {
    assert Pow256(2) == 65536;
  }

  /** The four-byte case used by the position reply: the range is [-2^31, 2^31). */
  lemma Word32Range(b: seq<byte>)
    requires |b| == 4
    ensures -0x8000_0000 <= Signed(b) < 0x8000_0000
  {
    Pow256Four();
  }

  /** The four-byte reading spelled out: byte 0 is the least significant, and
      the top bit of byte 3 is the sign bit, worth -2^31. */
  lemma Word32Value(b: seq<byte>)
    requires |b| == 4
    ensures Signed(b) == b[0] as int + 0x100 * b[1] as int + 0x1_0000 * b[2] as int + 0x100_0000 * b[3] as int
                         - (if b[3] as int >= 0x80 then 0x1_0000_0000 else 0)
  {
    Pow256Four();
    var b1, b2, b3 := b[1..], b[2..], b[3..];
    assert b1[1..] == b2 && b2[1..] == b3 && b3[1..] == [];
    assert Unsigned(b3) == b[3] as int;
    assert Unsigned(b2) == b[2] as int + 0x100 * b[3] as int;
    assert Unsigned(b1) == b[1] as int + 0x100 * b[2] as int + 0x1_0000 * b[3] as int;
    assert Unsigned(b) == b[0] as int + 0x100 * b[1] as int + 0x1_0000 * b[2] as int + 0x100_0000 * b[3] as int;
  }

  /** `v.to_bytes(4, 'little', signed=True)`: four bytes that read back as `v`. */
  function EncodeWord(v: int): (b: seq<byte>)
    requires -0x8000_0000 <= v < 0x8000_0000
    ensures |b| == 4 && Signed(b) == v
  {
    Pow256Four();
    SignedOfEncode(v, 4);
    EncodeSigned(v, 4)
  }
}

=== FILE: orientation.dfy ===
/** The orientation sources: reading rows of the live CSV file and unwrapping
    the yaw of each row into one continuous, unbounded rotation. */
module Orientation {
  import opened Wrappers
  import opened Text
  import opened Angle

  /** `get_single_row` up to the float parsing: characters are taken one at a
      time and buffered until a newline, which is consumed but not kept. Reads
      that find nothing new (end of file) add nothing. `complete` is false when
      the stream holds no newline yet: the running reader then keeps waiting
      with everything buffered. */
  method ReadRow(stream: string) returns (row: string, rest: string, complete: bool)
    ensures complete <==> '\n' in stream
    ensures complete ==> stream == row + "\n" + rest && '\n' !in row
    ensures !complete ==> row == stream && rest == []
    ensures complete ==> SplitAtFirst(stream, '\n') == Some((row, rest))
  {
    row := [];
    var i := 0;
    while i < |stream| && stream[i] != '\n'
      invariant 0 <= i <= |stream|
      invariant row == stream[..i]
      invariant '\n' !in row
    {
      row := row + [stream[i]];
      i := i + 1;
    }
    complete := i < |stream|;
    if complete {
      rest := stream[i + 1..];
      assert stream == row + "\n" + rest;
      SplitAtFirstOf(row, '\n', rest);
    } else {
      rest := [];
      assert row == stream;
    }
  }

  /** `buffer.split(',')[1:]`: the fields of a row after the first (the timestamp). */
  function DataFields(row: string): (fields: seq<string>)
    ensures forall i :: 0 <= i < |fields| ==> ',' !in fields[i]
    ensures |fields| == |Split(row, ',')| - 1
  {
    Split(row, ',')[1..]
  }

  /** A row written as a first field and data fields gives back exactly the data fields. */
  lemma DataFieldsOfRow(first: string, fields: seq<string>)
    requires ',' !in first
    requires forall i :: 0 <= i < |fields| ==> ',' !in fields[i]
    ensures DataFields(Join([first] + fields, ',')) == fields
  {
    var parts := [first] + fields;
    assert forall i :: 0 <= i < |parts| ==> ',' !in parts[i] by {
      forall i | 0 <= i < |parts|
        ensures ',' !in parts[i]
      {
        if i > 0 {
          assert parts[i] == fields[i - 1];
        }
      }
    }
    SplitJoin(parts, ',');
  }

  /** The unwrapping state of the reader thread: the accumulated rotation and
      the yaw of the previous row, None until the first row has been read. */
  datatype Unwrapper = Unwrapper(position: real, last: Option<real>)

  /** A freshly opened source: no rotation yet, no row read yet. */
  const Fresh: Unwrapper := Unwrapper(0.0, None)

  /** One row's yaw: the first row only sets the reference; every later row
      adds `((yaw - last + π) % 2π) - π` and becomes the new reference. */
  function Feed(u: Unwrapper, yaw: real): (r: Unwrapper)
    ensures r.last == Some(yaw)
    ensures u.last.None? ==> r.position == u.position
    ensures u.last.Some? ==> -(Pi as real) <= r.position - u.position < Pi
  {
    match u.last
    case None => Unwrapper(u.position, Some(yaw))
    case Some(previous) => Unwrapper(u.position + Wrap(yaw - previous), Some(yaw))
  }

  /** The reader loop over a finite run of rows' yaws. */
  function FeedAll(u: Unwrapper, yaws: seq<real>): (r: Unwrapper)
    ensures |yaws| > 0 ==> r.last == Some(yaws[|yaws| - 1])
    ensures |yaws| == 0 ==> r == u
    decreases |yaws|
  {
    if |yaws| == 0 then u else FeedAll(Feed(u, yaws[0]), yaws[1..])
  }

  /** The sum of the wrapped changes between consecutive yaws, starting from `l`. */
  function Increments(l: real, yaws: seq<real>): real
    decreases |yaws|
  {
    if |yaws| == 0 then 0.0 else Wrap(yaws[0] - l) + Increments(yaws[0], yaws[1..])
  }

  /** Once a reference yaw is set, the accumulated rotation is its starting
      value plus the sum of the increments, each in [-π, π). */
  lemma {:induction false} FeedAllIsSum(p: real, l: real, yaws: seq<real>)
    ensures FeedAll(Unwrapper(p, Some(l)), yaws).position == p + Increments(l, yaws)
    decreases |yaws|
  {
    if |yaws| > 0 {
      var step := Wrap(yaws[0] - l);
      assert Feed(Unwrapper(p, Some(l)), yaws[0]) == Unwrapper(p + step, Some(yaws[0]));
      FeedAllIsSum(p + step, yaws[0], yaws[1..]);
    }
  }

  /** The sum of `n` increments lies within `n` half turns of zero. */
  lemma {:induction false} IncrementsBound(l: real, yaws: seq<real>)
    ensures |yaws| > 0 ==> -(|yaws| as real) * Pi <= Increments(l, yaws) < |yaws| as real * Pi
    ensures |yaws| == 0 ==> Increments(l, yaws) == 0.0
    decreases |yaws|
  {
    if |yaws| > 1 {
      IncrementsBound(yaws[0], yaws[1..]);
      var n := (|yaws| - 1) as real;
      assert (n + 1.0) * Pi == n * Pi + Pi;
    }
  }

  /** Feeding rows in two batches is the same as feeding them in one. */
  lemma {:induction false} FeedAllAppend(u: Unwrapper, a: seq<real>, b: seq<real>)
    ensures FeedAll(u, a + b) == FeedAll(FeedAll(u, a), b)
    decreases |a|
  {
    if |a| > 0 {
      assert (a + b)[0] == a[0];
      assert (a + b)[1..] == a[1..] + b;
      FeedAllAppend(Feed(u, a[0]), a[1..], b);
    } else {
      assert a + b == b;
    }
  }

  /** After a reference yaw `l`, the accumulated rotation moved by the raw yaw
      change `last - l` up to whole turns: it is always a lift of the heading. */
  lemma {:induction false} FeedAllTurns(p: real, l: real, yaws: seq<real>) returns (k: int)
    requires |yaws| > 0
    ensures FeedAll(Unwrapper(p, Some(l)), yaws).position
            == p + (yaws[|yaws| - 1] - l) + k as real * Turn
    decreases |yaws|
  {
    var y := yaws[0];
    var j := WrapTurns(y - l);
    var p' := p + Wrap(y - l);
    if |yaws| == 1 {
      k := -j;
    } else {
      var rest := yaws[1..];
      var i := FeedAllTurns(p', y, rest);
      assert rest[|rest| - 1] == yaws[|yaws| - 1];
      k := i - j;
    }
  }

  /** The unwrapping is exact for any physically plausible motion: when each
      yaw is the true heading `theta[i]` seen modulo whole turns `turns[i]`,
      and the true heading moves by an amount in [-π, π) between rows, the
      accumulated rotation is the true total rotation `theta[n-1] - theta[0]`,
      with no jump where the yaw crosses ±π. */
  lemma {:induction false} FeedAllTracksHeading(theta: seq<real>, turns: seq<int>, yaws: seq<real>)
    requires |theta| == |turns| == |yaws| > 0
    requires forall i :: 0 <= i < |yaws| ==> yaws[i] == theta[i] + turns[i] as real * Turn
    requires forall i :: 0 < i < |theta| ==> -(Pi as real) <= theta[i] - theta[i - 1] < Pi
    ensures FeedAll(Fresh, yaws).position == theta[|theta| - 1] - theta[0]
  {
    assert FeedAll(Fresh, yaws) == FeedAll(Unwrapper(0.0, Some(yaws[0])), yaws[1..]);
    assert Plausible(theta, turns, yaws);
    TracksFrom(0.0, theta, turns, yaws);
  }

  /** The yaws of a plausible motion, seen as in FeedAllTracksHeading. */
  ghost predicate Plausible(theta: seq<real>, turns: seq<int>, yaws: seq<real>)
  {
    && |theta| == |turns| == |yaws| > 0
    && (forall i :: 0 <= i < |yaws| ==> yaws[i] == theta[i] + turns[i] as real * Turn)
    && (forall i :: 0 < i < |theta| ==> -(Pi as real) <= theta[i] - theta[i - 1] < Pi)
  }

  /** Dropping the first row of a plausible motion leaves a plausible motion. */
  lemma PlausibleTail(theta: seq<real>, turns: seq<int>, yaws: seq<real>)
    requires Plausible(theta, turns, yaws) && |yaws| > 1
    ensures Plausible(theta[1..], turns[1..], yaws[1..])
  {
    var theta', turns', yaws' := theta[1..], turns[1..], yaws[1..];
    forall i | 0 <= i < |yaws'|
      ensures yaws'[i] == theta'[i] + turns'[i] as real * Turn
    {
      assert yaws'[i] == yaws[i + 1] && theta'[i] == theta[i + 1] && turns'[i] == turns[i + 1];
    }
    forall i | 0 < i < |theta'|
      ensures -(Pi as real) <= theta'[i] - theta'[i - 1] < Pi
    {
      assert theta'[i] == theta[i + 1] && theta'[i - 1] == theta[i];
    }
  }

  /** FeedAllTracksHeading once the first row has set the reference. */
  lemma {:induction false} TracksFrom(p: real, theta: seq<real>, turns: seq<int>, yaws: seq<real>)
    requires Plausible(theta, turns, yaws)
    ensures FeedAll(Unwrapper(p, Some(yaws[0])), yaws[1..]).position == p + theta[|theta| - 1] - theta[0]
    decreases |yaws|
  {
    if |yaws| > 1 {
      var p' := p + (theta[1] - theta[0]);
      StepExact(theta[0], theta[1], turns[0], turns[1], yaws[0], yaws[1]);
      assert Feed(Unwrapper(p, Some(yaws[0])), yaws[1]) == Unwrapper(p', Some(yaws[1]));
      PlausibleTail(theta, turns, yaws);
      TracksFrom(p', theta[1..], turns[1..], yaws[1..]);
      assert yaws[1..] == [yaws[1]] + yaws[2..];
      assert yaws[1..][1..] == yaws[2..];
    }
  }

  /** One row of a plausible motion: the unwrap increment is the true heading change. */
  lemma StepExact(th0: real, th1: real, k0: int, k1: int, y0: real, y1: real)
    requires y0 == th0 + k0 as real * Turn && y1 == th1 + k1 as real * Turn
    requires -(Pi as real) <= th1 - th0 < Pi
    ensures Wrap(y1 - y0) == th1 - th0
  {
    var d := th1 - th0;
    var j := k1 - k0;
    TurnsDifference(k1, k0);
    WrapShifted(y1 - y0, d, j);
    WrapIdentity(d);
  }

  /** The two kinds of orientation source the application can follow. The
      synthetic source's random walk is not modelled; only its position is. */
  datatype Source =
    | CsvSource(filename: string, unwrapper: Unwrapper)
    | DummySource(position: real)
  {
    /** The accumulated rotation the synchronisation loop reads. */
    function Position(): real
    {
      match this
      case CsvSource(_, u) => u.position
      case DummySource(p) => p
    }
  }

  /** `CSV_source(filename)`: a new source starts at rotation zero. */
  function OpenCsv(filename: string): (s: Source)
    ensures s.Position() == 0.0 && s.CsvSource? && s.filename == filename
    ensures s.unwrapper == Fresh && s.unwrapper.last.None?
  {
    CsvSource(filename, Fresh)
  }
}

=== FILE: protocol.dfy ===
/** The ASCII wire protocol of the stepper driver: one opcode letter per command,
    with a signed decimal argument and an `X` terminator for the two that take one. */
module Protocol {
  import opened Wrappers
  import opened Text
  import opened Decimal

  datatype Command =
    | Reset                  // R: zero the motor reference
    | Stop                   // S: halt motion
    | Resume                 // G: resume motion
    | MicrostepOn            // M: 3200 steps per turn
    | MicrostepOff           // N: 200 steps per turn
    | MoveTo(steps: int)     // P<steps>X: absolute target in motor steps
    | StepTime(micros: int)  // T<micros>X: time per step in microseconds
    | Query                  // Q: ask for the position, answered with 4 bytes

  /** The bytes `_write` sends for one command. */
  function Encode(c: Command): (w: string)
    ensures |w| >= 1
  {
    match c
    case Reset => "R"
    case Stop => "S"
    case Resume => "G"
    case MicrostepOn => "M"
    case MicrostepOff => "N"
    case MoveTo(n) => "P" + FromInt(n) + "X"
    case StepTime(t) => "T" + FromInt(t) + "X"
    case Query => "Q"
  }

  /** The byte stream of a sequence of whole commands. */
  function EncodeAll(cs: seq<Command>): string
  {
    if |cs| == 0 then "" else Encode(cs[0]) + EncodeAll(cs[1..])
  }

  lemma {:induction false} EncodeAllAppend(a: seq<Command>, b: seq<Command>)
    ensures EncodeAll(a + b) == EncodeAll(a) + EncodeAll(b)
  {
    if |a| > 0 {
      assert (a + b)[1..] == a[1..] + b;
      EncodeAllAppend(a[1..], b);
    } else {
      assert a + b == b;
    }
  }

  lemma EncodeAllSingle(c: Command)
    ensures EncodeAll([c]) == Encode(c)
  {
    assert [c][1..] == [];
  }

  function Prepend(c: Command, rest: Option<seq<Command>>): Option<seq<Command>>
  {
    if rest.Some? then Some([c] + rest.value) else None
  }

  /** Reads a decimal argument terminated by `X` off the front of `w`. */
  function ParseArgument(w: string): (r: Option<(int, string)>)
    ensures r.Some? ==> |r.value.1| < |w|
  {
    match SplitAtFirst(w, 'X')
    case None => None
    case Some(p) =>
      match ParseInt(p.0)
      case None => None
      case Some(n) => Some((n, p.1))
  }

  /** The receiving side: splits a byte stream back into commands, or None
      when it is not a sequence of whole, well-formed commands. */
  function ParseWire(w: string): Option<seq<Command>>
    decreases |w|
  {
    if |w| == 0 then Some([])
    else
      var op, rest := w[0], w[1..];
      if op == 'R' then Prepend(Reset, ParseWire(rest))
      else if op == 'S' then Prepend(Stop, ParseWire(rest))
      else if op == 'G' then Prepend(Resume, ParseWire(rest))
      else if op == 'M' then Prepend(MicrostepOn, ParseWire(rest))
      else if op == 'N' then Prepend(MicrostepOff, ParseWire(rest))
      else if op == 'Q' then Prepend(Query, ParseWire(rest))
      else if op == 'P' || op == 'T' then
        match ParseArgument(rest)
        case None => None
        case Some(a) =>
          Prepend(if op == 'P' then MoveTo(a.0) else StepTime(a.0), ParseWire(a.1))
      else None
  }

  lemma ParseArgumentOf(n: int, rest: string)
    ensures ParseArgument(FromInt(n) + "X" + rest) == Some((n, rest))
  {
    SplitAtFirstOf(FromInt(n), 'X', rest);
    ParseFromInt(n);
  }

  lemma ParseWireArgument(op: char, n: int, rest: string)
    requires op == 'P' || op == 'T'
    ensures ParseWire([op] + FromInt(n) + "X" + rest)
         == Prepend(if op == 'P' then MoveTo(n) else StepTime(n), ParseWire(rest))
  {
    var w := [op] + FromInt(n) + "X" + rest;
    assert w[0] == op && w[1..] == FromInt(n) + "X" + rest;
    ParseArgumentOf(n, rest);
  }

  lemma ParseWireOpcode(c: Command, rest: string)
    requires !c.MoveTo? && !c.StepTime?
    ensures ParseWire(Encode(c) + rest) == Prepend(c, ParseWire(rest))
  {
    var w := Encode(c) + rest;
    assert w[1..] == rest;
  }

  /** Decoding one encoded command in front of any stream yields that command first. */
  lemma ParseWireCons(c: Command, rest: string)
    ensures ParseWire(Encode(c) + rest) == Prepend(c, ParseWire(rest))
  {
    match c
    case MoveTo(n) => ParseWireArgument('P', n, rest);
    case StepTime(t) => ParseWireArgument('T', t, rest);
    case _ => ParseWireOpcode(c, rest);
  }

  /** The wire format is uniquely decodable: the stream of any command sequence
      decodes to exactly that sequence, so whole commands never blur together. */
  lemma {:induction false} ParseEncodeAll(cs: seq<Command>)
    ensures ParseWire(EncodeAll(cs)) == Some(cs)
  {
    if |cs| > 0 {
      ParseWireCons(cs[0], EncodeAll(cs[1..]));
      ParseEncodeAll(cs[1..]);
      assert [cs[0]] + cs[1..] == cs;
    }
  }
}

=== FILE: stepper.dfy ===
/** The stepper motor controller: its local state and, for every public
    operation, the commands it writes to the serial port. Each operation is
    modelled as one atomic step. In the running program only some methods hold
    the controller's lock, and `pos_reset` takes it twice, so this atomicity
    is a choice of the model. */
module Stepper {
  import opened Angle
  import opened LittleEndian
  import opened Wrappers
  import opened Protocol

  const FullStepsPerTurn: int := 200
  const MicroStepsPerTurn: int := 3200
  const DefaultStepTime: int := 312

  /** The direction multiplier between logical and physical rotation. */
  type Sense = s: int | s == 1 || s == -1 witness 1

  /** The four bytes the driver answers a position query with. */
  type Reply = b: seq<byte> | |b| == 4 witness [0, 0, 0, 0]

  datatype Controller = Controller(
    stepsPerTurn: int,
    stepTime: int,           // microseconds per step
    microstep: bool,         // constructor choice, re-applied by PosReset
    microstepActive: bool,
    position: real,          // last commanded position, radians
    positionMotor: int,      // last commanded position, motor steps before the sense
    sense: Sense,
    sent: seq<Command>)      // every command written to the port, oldest first
  {
    /** The step resolution always matches the microstep mode. */
    predicate Valid()
    {
      stepsPerTurn == (if microstepActive then MicroStepsPerTurn else FullStepsPerTurn)
    }

    /** The bytes written to the port so far. */
    function Wire(): string
    {
      EncodeAll(sent)
    }
  }

  /** `_write`: the commands go out whole, in order, after everything sent before. */
  function Send(c: Controller, cmds: seq<Command>): (r: Controller)
    ensures r.sent == c.sent + cmds
    ensures r.Wire() == c.Wire() + EncodeAll(cmds)
    ensures r.(sent := c.sent) == c
  {
    EncodeAllAppend(c.sent, cmds);
    c.(sent := c.sent + cmds)
  }

  /** `reset`: writes `R` and zeroes the commanded position; the motor-step
      copy of it is left as it was. */
  function Reset(c: Controller): (r: Controller)
    ensures r.Wire() == c.Wire() + "R"
    ensures r.sent == c.sent + [Command.Reset]
    ensures r.position == 0.0 && r.positionMotor == c.positionMotor
    ensures r.(position := c.position, sent := c.sent) == c
  {
    Send(c, [Command.Reset]).(position := 0.0)
  }

  /** `stop`: writes `S` and changes nothing else. */
  function Stop(c: Controller): (r: Controller)
    ensures r.Wire() == c.Wire() + "S"
    ensures r.sent == c.sent + [Command.Stop]
    ensures r.(sent := c.sent) == c
  {
    Send(c, [Command.Stop])
  }

  /** `resume`: writes `G` and changes nothing else. */
  function Resume(c: Controller): (r: Controller)
    ensures r.Wire() == c.Wire() + "G"
    ensures r.sent == c.sent + [Command.Resume]
    ensures r.(sent := c.sent) == c
  {
    Send(c, [Command.Resume])
  }

  /** `_activate_microstep`: 3200 steps per turn, writes `M`. */
  function ActivateMicrostep(c: Controller): (r: Controller)
    ensures r.Wire() == c.Wire() + "M"
    ensures r.sent == c.sent + [MicrostepOn]
    ensures r.Valid() && r.microstepActive && r.stepsPerTurn == 3200
    ensures r.(stepsPerTurn := c.stepsPerTurn, microstepActive := c.microstepActive, sent := c.sent) == c
  {
    Send(c, [MicrostepOn]).(microstepActive := true, stepsPerTurn := MicroStepsPerTurn)
  }

  /** `_deactivate_microstep`: 200 steps per turn, writes `N`. */
  function DeactivateMicrostep(c: Controller): (r: Controller)
    ensures r.Wire() == c.Wire() + "N"
    ensures r.sent == c.sent + [MicrostepOff]
    ensures r.Valid() && !r.microstepActive && r.stepsPerTurn == 200
    ensures r.(stepsPerTurn := c.stepsPerTurn, microstepActive := c.microstepActive, sent := c.sent) == c
  {
    Send(c, [MicrostepOff]).(microstepActive := false, stepsPerTurn := FullStepsPerTurn)
  }

  /** `set_step_time(t)`: writes `T<t>X` and records `t`. */
  function SetStepTime(c: Controller, t: int): (r: Controller)
    ensures r.Wire() == c.Wire() + "T" + Decimal.FromInt(t) + "X"
    ensures r.sent == c.sent + [StepTime(t)]
    ensures r.stepTime == t
    ensures r.(stepTime := c.stepTime, sent := c.sent) == c
  {
    EncodeAllSingle(StepTime(t));
    assert c.Wire() + ("T" + Decimal.FromInt(t) + "X") == c.Wire() + "T" + Decimal.FromInt(t) + "X";
    Send(c, [StepTime(t)]).(stepTime := t)
  }

  /** `int(steps_per_turn * pos / 2π)`: an angle in motor steps, truncated toward zero. */
  function MotorSteps(stepsPerTurn: int, pos: real): (n: int)
    ensures var x := stepsPerTurn as real * pos / Turn;
            && (0.0 <= x ==> 0 <= n && n as real <= x < n as real + 1.0)
            && (x < 0.0 ==> n <= 0 && n as real - 1.0 < x <= n as real)
  {
    Trunc(stepsPerTurn as real * pos / Turn)
  }

  /** The write half of `set_position`: record the angle and its step count,
      and send the count with the sense applied. */
  function MoveToSteps(c: Controller, pos: real, steps: int): (r: Controller)
    ensures r.position == pos && r.positionMotor == steps
    ensures r.Wire() == c.Wire() + "P" + Decimal.FromInt(c.sense * steps) + "X"
    ensures r.sent == c.sent + [MoveTo(c.sense * steps)]
    ensures r.(position := c.position, positionMotor := c.positionMotor, sent := c.sent) == c
  {
    var n := c.sense * steps;
    EncodeAllSingle(MoveTo(n));
    assert c.Wire() + ("P" + Decimal.FromInt(n) + "X") == c.Wire() + "P" + Decimal.FromInt(n) + "X";
    Send(c, [MoveTo(n)]).(position := pos, positionMotor := steps)
  }

  /** `set_position(pos)`: the target in motor steps is `steps_per_turn * pos / 2π`
      truncated toward zero, and the sense is applied to the truncated count. */
  function SetPosition(c: Controller, pos: real): (r: Controller)
    ensures r.position == pos
    ensures r.positionMotor == MotorSteps(c.stepsPerTurn, pos)
    ensures r.Wire() == c.Wire() + "P" + Decimal.FromInt(c.sense * r.positionMotor) + "X"
    ensures r.sent == c.sent + [MoveTo(c.sense * r.positionMotor)]
    ensures r.(position := c.position, positionMotor := c.positionMotor, sent := c.sent) == c
  {
    MoveToSteps(c, pos, MotorSteps(c.stepsPerTurn, pos))
  }

  /** `pos_reset`: writes `R`, then `M` when the controller was built for
      microstepping, then re-sends the step time it had; the commanded position
      is zeroed. */
  function PosReset(c: Controller): (r: Controller)
    requires c.Valid()
    ensures r.sent == c.sent + [Command.Reset]
                     + (if c.microstep then [MicrostepOn] else []) + [StepTime(c.stepTime)]
    ensures r.Wire() == c.Wire() + "R" + (if c.microstep then "M" else "")
                        + "T" + Decimal.FromInt(c.stepTime) + "X"
    ensures r.Valid() && r.stepTime == c.stepTime && r.position == 0.0
    ensures r.stepsPerTurn == if c.microstep then 3200 else c.stepsPerTurn
    ensures r.positionMotor == c.positionMotor && r.sense == c.sense && r.microstep == c.microstep
  {
    var oldStepTime := c.stepTime;
    var afterR := Send(c, [Command.Reset]);
    var afterM := if c.microstep then ActivateMicrostep(afterR) else afterR;
    EncodeAllSingle(Command.Reset);
    var r := SetStepTime(afterM.(position := 0.0), oldStepTime);
    assert afterM.Wire() == c.Wire() + "R" + (if c.microstep then "M" else "");
    r
  }

  /** `query_position`: writes `Q` and turns the signed little-endian step count
      of the reply into radians, `sense * 2π * steps / steps_per_turn`. */
  function QueryPosition(c: Controller, reply: Reply): (r: (Controller, real))
    requires c.Valid()
    ensures r.0 == Send(c, [Query]) && r.0.Wire() == c.Wire() + "Q"
    ensures -0x8000_0000 <= Signed(reply) < 0x8000_0000
    ensures r.1 * c.stepsPerTurn as real == (c.sense * Signed(reply)) as real * Turn
  {
    Word32Range(reply);
    (Send(c, [Query]), StepsAngle(c.sense * Signed(reply), c.stepsPerTurn))
  }

  /** `2π * n / steps_per_turn`: a step count as an angle. */
  function StepsAngle(n: int, stepsPerTurn: int): (r: real)
    requires stepsPerTurn > 0
    ensures r * stepsPerTurn as real == n as real * Turn
  {
    n as real * Turn / stepsPerTurn as real
  }

  /** Distinct step counts are distinct angles. */
  lemma StepsAngleInjective(m: int, n: int, stepsPerTurn: int)
    requires stepsPerTurn > 0
    requires StepsAngle(m, stepsPerTurn) == StepsAngle(n, stepsPerTurn)
    ensures m == n
  {
    var q := StepsAngle(m, stepsPerTurn);
    assert m as real * Turn == n as real * Turn;
    if m < n {
      MulStrict(m as real, n as real, Turn);
    } else if n < m {
      MulStrict(n as real, m as real, Turn);
    }
  }

  /** The bytes on the wire decode back to exactly the commands sent: the
      controller's output is never ambiguous to the driver. */
  lemma WireDecodes(c: Controller)
    ensures ParseWire(c.Wire()) == Some(c.sent)
  {
    ParseEncodeAll(c.sent);
  }

  /** Distinct replies read as distinct angles: no step count is lost in the
      conversion to radians. */
  lemma QueryInjective(c: Controller, a: Reply, b: Reply)
    requires c.Valid()
    requires QueryPosition(c, a).1 == QueryPosition(c, b).1
    ensures a == b
  {
    var na, nb := Signed(a), Signed(b);
    StepsAngleInjective(c.sense * na, c.sense * nb, c.stepsPerTurn);
    SenseCancels(c.sense, na, nb);
    SignedInjective(a, b);
  }

  lemma SenseCancels(s: Sense, x: int, y: int)
    requires s * x == s * y
    ensures x == y
  {
    assert x == s * (s * x) && y == s * (s * y);
  }

  /** `__init__`: reset, microstepping off, on again if requested, then the
      default step time; the sense is fixed from then on. Attributes the
      constructor assigns only later start from zero. */
  function Init(sense: Sense, microstep: bool): (r: Controller)
    ensures r.Valid() && r.sense == sense && r.microstep == microstep
    ensures r.stepsPerTurn == if microstep then 3200 else 200
    ensures r.stepTime == 312 && r.position == 0.0 && r.positionMotor == 0
    ensures r.sent == [Command.Reset, MicrostepOff]
                      + (if microstep then [MicrostepOn] else []) + [StepTime(312)]
  {
    var blank := Controller(FullStepsPerTurn, 0, microstep, false, 0.0, 0, sense, []);
    var c := DeactivateMicrostep(Reset(blank));
    var c := c.(stepsPerTurn := FullStepsPerTurn);
    var c := if microstep then ActivateMicrostep(c) else c;
    SetStepTime(c.(position := 0.0, positionMotor := 0), DefaultStepTime)
  }

  lemma DefaultStepTimeText()
    ensures Decimal.FromInt(DefaultStepTime) == "312"
  {
    assert Decimal.NatDigits(3) == "3";
    assert Decimal.NatDigits(31) == Decimal.NatDigits(3) + "1";
    assert Decimal.NatDigits(312) == Decimal.NatDigits(31) + "2";
  }

  /** The bytes a freshly built controller has written: `RN`, `M` when
      microstepping, and `T312X`. */
  lemma InitWire(sense: Sense, microstep: bool)
    ensures Init(sense, microstep).Wire() == "RN" + (if microstep then "M" else "") + "T312X"
  {
    var m := if microstep then [MicrostepOn] else [];
    InitSentWire(m);
  }

  lemma InitSentWire(m: seq<Command>)
    requires m == [] || m == [MicrostepOn]
    ensures EncodeAll([Command.Reset, MicrostepOff] + m + [StepTime(312)])
         == "RN" + (if m == [] then "" else "M") + "T312X"
  {
    var sent := [Command.Reset, MicrostepOff] + m + [StepTime(312)];
    assert sent == [Command.Reset] + ([MicrostepOff] + (m + [StepTime(312)]));
    EncodeAllAppend([Command.Reset], [MicrostepOff] + (m + [StepTime(312)]));
    EncodeAllAppend([MicrostepOff], m + [StepTime(312)]);
    EncodeAllAppend(m, [StepTime(312)]);
    EncodeAllSingle(Command.Reset);
    EncodeAllSingle(MicrostepOff);
    EncodeAllSingle(MicrostepOn);
    EncodeAllSingle(StepTime(312));
    DefaultStepTimeText();
  }

  /** Half a turn is 100 motor steps at full steps and 1600 when microstepping. */
  lemma HalfTurnSteps(c: Controller)
    requires c.Valid() && c.sense == 1
    ensures SetPosition(c, Pi).sent == c.sent + [MoveTo(if c.microstepActive then 1600 else 100)]
  {
    var n := if c.microstepActive then 1600 else 100;
    HalfTurn(n);
    assert c.stepsPerTurn == 2 * n;
    assert MotorSteps(c.stepsPerTurn, Pi) == n;
  }

  /** `2n` steps per turn put half a turn at exactly `n` steps. */
  lemma HalfTurn(n: int)
    ensures (2 * n) as real * Pi / Turn == n as real
  {
    assert (2 * n) as real * Pi == n as real * Turn;
  }

  /** Once the motor stands where `set_position(pos)` sent it, its reply
      carries the commanded step count, and the reported angle is `pos`
      truncated toward zero to a whole motor step. */
  lemma QueryAfterMove(c: Controller, pos: real, reply: Reply)
    requires c.Valid()
    requires Signed(reply) == c.sense * SetPosition(c, pos).positionMotor
    ensures var q := QueryPosition(SetPosition(c, pos), reply).1;
            var step := Turn / c.stepsPerTurn as real;
            && (0.0 <= pos ==> 0.0 <= q <= pos < q + step)
            && (pos < 0.0 ==> q - step < pos <= q <= 0.0)
  {
    var m := SetPosition(c, pos);
    var spr := c.stepsPerTurn as real;
    var k := MotorSteps(c.stepsPerTurn, pos);
    var q := QueryOfCommanded(m, reply, spr, k);
    StepAngleBounds(spr, pos, k, q);
  }

  /** A reply carrying the commanded step count reads back as that many steps' angle. */
  lemma QueryOfCommanded(m: Controller, reply: Reply, spr: real, k: int) returns (q: real)
    requires m.Valid() && spr == m.stepsPerTurn as real && k == m.positionMotor
    requires Signed(reply) == m.sense * m.positionMotor
    ensures q == QueryPosition(m, reply).1
    ensures q * spr == k as real * Turn
  {
    q := QueryPosition(m, reply).1;
    SenseTwice(q, spr, m.sense, Signed(reply), k);
  }

  /** Applying the sense twice cancels it out. */
  lemma SenseTwice(q: real, spr: real, s: Sense, n: int, k: int)
    requires q * spr == (s * n) as real * Turn
    requires n == s * k
    ensures q * spr == k as real * Turn
  {
    assert s * n == k;
  }

  /** The arithmetic behind QueryAfterMove: scaling the truncation bounds of
      `spr * pos / 2π` back by one step's angle `2π / spr`. */
  lemma StepAngleBounds(spr: real, pos: real, k: int, q: real)
    requires spr > 0.0
    requires q * spr == k as real * Turn
    requires var x := spr * pos / Turn;
             && (0.0 <= x ==> 0 <= k && k as real <= x < k as real + 1.0)
             && (x < 0.0 ==> k <= 0 && k as real - 1.0 < x <= k as real)
    ensures 0.0 <= pos ==> 0.0 <= q <= pos < q + Turn / spr
    ensures pos < 0.0 ==> q - Turn / spr < pos <= q <= 0.0
  {
    var x := spr * pos / Turn;
    var u := StepAngle(spr);
    Rescale(spr, pos, x);
    Rescale(spr, q, k as real);
    TruncScaled(k as real, x, u, pos, q);
  }

  /** The angle of one motor step, `2π / spr`. */
  lemma StepAngle(spr: real) returns (u: real)
    requires spr > 0.0
    ensures u == Turn / spr && u > 0.0
  {
    u := Turn / spr;
  }

  /** `x` steps of `2π / spr` make the angle `a` exactly when `x == spr * a / 2π`. */
  lemma Rescale(spr: real, a: real, x: real)
    requires spr > 0.0
    requires x == spr * a / Turn || a * spr == x * Turn
    ensures a == x * (Turn / spr)
    ensures a < 0.0 <==> x < 0.0
  {
  }

  /** Truncation bounds on a step count carry over to the angles `count * u`. */
  lemma TruncScaled(k: real, x: real, u: real, a: real, q: real)
    requires u > 0.0 && a == x * u && q == k * u
    ensures 0.0 <= k <= x < k + 1.0 ==> 0.0 <= q <= a < q + u
    ensures k - 1.0 < x <= k <= 0.0 ==> q - u < a <= q <= 0.0
  {
    if 0.0 <= k <= x < k + 1.0 {
      MulMonotone(0.0, k, u);
      MulMonotone(k, x, u);
      MulStrict(x, k + 1.0, u);
      var next := (k + 1.0) * u;
      assert next == q + u;
      assert a < next;
    }
    if k - 1.0 < x <= k <= 0.0 {
      MulMonotone(k, 0.0, u);
      MulMonotone(x, k, u);
      MulStrict(k - 1.0, x, u);
      var prev := (k - 1.0) * u;
      assert prev == q - u;
      assert prev < a;
    }
  }

  /** A public operation of the controller, with the reply a query receives. */
  datatype Call =
    | CallReset
    | CallStop
    | CallResume
    | CallPosReset
    | CallSetPosition(pos: real)
    | CallSetStepTime(t: int)
    | CallActivateMicrostep
    | CallDeactivateMicrostep
    | CallQuery(reply: Reply)

  function Apply(c: Controller, call: Call): (r: Controller)
    requires c.Valid()
    ensures r.Valid() && r.sense == c.sense && r.microstep == c.microstep
    ensures |r.sent| > |c.sent| && r.sent[..|c.sent|] == c.sent
  {
    match call
    case CallReset => Reset(c)
    case CallStop => Stop(c)
    case CallResume => Resume(c)
    case CallPosReset => PosReset(c)
    case CallSetPosition(pos) => SetPosition(c, pos)
    case CallSetStepTime(t) => SetStepTime(c, t)
    case CallActivateMicrostep => ActivateMicrostep(c)
    case CallDeactivateMicrostep => DeactivateMicrostep(c)
    case CallQuery(reply) => QueryPosition(c, reply).0
  }

  /** Any sequence of calls, one atomic step each. The steps-per-turn value stays
      in {200, 3200} in step with the microstep mode, the sense and the microstep
      choice never change, and the port log only grows, one command or more per call. */
  function Run(c: Controller, calls: seq<Call>): (r: Controller)
    requires c.Valid()
    ensures r.Valid() && r.sense == c.sense && r.microstep == c.microstep
    ensures r.stepsPerTurn == 200 || r.stepsPerTurn == 3200
    ensures |r.sent| >= |c.sent| + |calls| && r.sent[..|c.sent|] == c.sent
    decreases |calls|
  {
    if |calls| == 0 then c
    else
      var next := Apply(c, calls[0]);
      var r := Run(next, calls[1..]);
      assert r.sent[..|c.sent|] == r.sent[..|next.sent|][..|c.sent|];
      r
  }
}

=== FILE: sync.dfy ===
/** The application's synchronisation logic without its window: one pass of
    the update loop, and the collaborator actions that change what it aims at. */
module Sync {
  import opened Wrappers
  import opened Angle
  import opened LittleEndian
  import opened Protocol
  import opened Stepper
  import opened Orientation

  /** Deviation the motor may have from the target before it is re-commanded: π/16. */
  const Threshold: real := Pi / 16.0

  function Abs(x: real): (r: real)
    ensures r >= 0.0 && (r == x || r == -x)
  {
    if x < 0.0 then -x else x
  }

  datatype App = App(
    stepper: Controller,
    source: Source,
    offset: real,         // manual offset from the slider, radians
    offsetOffset: real,   // offsets folded in by "reset slider"
    stepTimeFast: int)    // step time the speed slider asks for, microseconds

  /** What the motor should point at: both offsets plus the source's rotation. */
  function Target(a: App): real
  {
    a.offset + a.offsetOffset + a.source.Position()
  }

  /** Whether a pass re-commands the motor, given the angle the motor reported. */
  predicate Moves(current: real, target: real)
  {
    Abs(current - target) > Threshold
  }

  /** One pass of `_update_loop`: query the motor, re-command it when it is more
      than π/16 off the target, then bring the step time to the requested one.
      Nothing but the controller changes. */
  function Tick(a: App, reply: Reply): (r: App)
    requires a.stepper.Valid()
    ensures r.stepper.Valid() && r.(stepper := a.stepper) == a
    ensures r.stepper.stepTime == a.stepTimeFast
    ensures r.stepper.sense == a.stepper.sense && r.stepper.stepsPerTurn == a.stepper.stepsPerTurn
    ensures r.stepper.microstep == a.stepper.microstep && r.stepper.microstepActive == a.stepper.microstepActive
    ensures var current := QueryPosition(a.stepper, reply).1;
            var move := Moves(current, Target(a));
            && r.stepper.sent == a.stepper.sent + [Query]
                 + (if move then [MoveTo(a.stepper.sense * MotorSteps(a.stepper.stepsPerTurn, Target(a)))] else [])
                 + (if a.stepper.stepTime != a.stepTimeFast then [StepTime(a.stepTimeFast)] else [])
            && r.stepper.position == (if move then Target(a) else a.stepper.position)
            && r.stepper.positionMotor
               == (if move then MotorSteps(a.stepper.stepsPerTurn, Target(a)) else a.stepper.positionMotor)
  {
    var target := Target(a);
    var (queried, current) := QueryPosition(a.stepper, reply);
    var moved := if Moves(current, target) then SetPosition(queried, target) else queried;
    var paced := if moved.stepTime != a.stepTimeFast then SetStepTime(moved, a.stepTimeFast) else moved;
    a.(stepper := paced)
  }

  /** The number of re-commands a list of commands holds. */
  function MoveCount(cmds: seq<Command>): nat
  {
    if |cmds| == 0 then 0 else (if cmds[0].MoveTo? then 1 else 0) + MoveCount(cmds[1..])
  }

  lemma {:induction false} MoveCountAppend(a: seq<Command>, b: seq<Command>)
    ensures MoveCount(a + b) == MoveCount(a) + MoveCount(b)
  {
    if |a| > 0 {
      assert (a + b)[1..] == a[1..] + b;
      MoveCountAppend(a[1..], b);
    } else {
      assert a + b == b;
    }
  }

  /** Hysteresis: a pass sends exactly one move command when the reported
      position is more than π/16 from the target, and none otherwise. */
  lemma TickMovesIff(a: App, reply: Reply)
    requires a.stepper.Valid()
    ensures var current := QueryPosition(a.stepper, reply).1;
            var added := Tick(a, reply).stepper.sent[|a.stepper.sent|..];
            MoveCount(added) == if Abs(current - Target(a)) > Pi / 16.0 then 1 else 0
  {
    var r := Tick(a, reply);
    var current := QueryPosition(a.stepper, reply).1;
    var move := Moves(current, Target(a));
    var m := if move then [MoveTo(a.stepper.sense * MotorSteps(a.stepper.stepsPerTurn, Target(a)))] else [];
    var t := if a.stepper.stepTime != a.stepTimeFast then [StepTime(a.stepTimeFast)] else [];
    assert r.stepper.sent[|a.stepper.sent|..] == [Query] + m + t;
    MoveCountTick(m, t);
  }

  /** A pass's commands hold as many moves as its optional move part. */
  lemma MoveCountTick(m: seq<Command>, t: seq<Command>)
    requires |m| <= 1 && (forall i :: 0 <= i < |m| ==> m[i].MoveTo?)
    requires |t| <= 1 && (forall i :: 0 <= i < |t| ==> t[i].StepTime?)
    ensures MoveCount([Query] + m + t) == |m|
  {
    MoveCountAppend([Query] + m, t);
    MoveCountAppend([Query], m);
    assert MoveCount(t) == 0 by {
      if |t| > 0 {
        assert t[1..] == [];
      }
    }
    assert MoveCount([Query]) == 0 by {
      assert [Query][1..] == [];
    }
    assert MoveCount(m) == |m| by {
      if |m| > 0 {
        assert m[1..] == [];
      }
    }
  }

  /** The hysteresis boundary seen from a motor at zero: targets within π/16
      of it send no move, targets beyond send one. */
  lemma HysteresisAtZero(a: App)
    requires a.stepper.Valid()
    ensures var added := Tick(a, [0, 0, 0, 0]).stepper.sent[|a.stepper.sent|..];
            MoveCount(added) == if Abs(Target(a)) > Pi / 16.0 then 1 else 0
  {
    TickMovesIff(a, [0, 0, 0, 0]);
    QueryAtZero(a.stepper);
  }

  /** A reply of four zero bytes reads as angle zero. */
  lemma QueryAtZero(c: Controller)
    requires c.Valid()
    ensures QueryPosition(c, [0, 0, 0, 0]).1 == 0.0
  {
    var q := QueryPosition(c, [0, 0, 0, 0]).1;
    assert Signed([0, 0, 0, 0]) == 0;
    assert q * c.stepsPerTurn as real == 0.0;
  }

  /** The speed reconciliation is idempotent: the pass after any pass sends no
      step-time command when the requested speed has not changed. */
  lemma SpeedSettles(a: App, first: Reply, second: Reply)
    requires a.stepper.Valid()
    ensures var once := Tick(a, first);
            var twice := Tick(once, second);
            StepTime(a.stepTimeFast) !in twice.stepper.sent[|once.stepper.sent|..]
  {
  }

  /** No chatter: when the motor has reached a position the loop commanded and
      neither the source nor the offsets have moved, the next pass leaves the
      motor alone, because one motor step (at most 2π/200) is far below π/16. */
  lemma SettledTickIsQuiet(a: App, pos: real, reply: Reply)
    requires a.stepper.Valid()
    requires pos == Target(a)
    requires Signed(reply) == a.stepper.sense * SetPosition(a.stepper, pos).positionMotor
    ensures !Moves(QueryPosition(SetPosition(a.stepper, pos), reply).1, Target(a))
  {
    var c := a.stepper;
    QueryAfterMove(c, pos, reply);
    var q := QueryPosition(SetPosition(c, pos), reply).1;
    var step := Turn / c.stepsPerTurn as real;
    assert step <= Turn / 200.0;
    assert Abs(q - pos) < Threshold;
  }

  /** Two passes chained: once a pass has re-commanded the motor, and the
      motor answers the next query with the commanded step count, the next
      pass sends no move while the target stays put. */
  lemma TickThenSettled(a: App, first: Reply, second: Reply)
    requires a.stepper.Valid()
    requires Moves(QueryPosition(a.stepper, first).1, Target(a))
    requires Signed(second) == Tick(a, first).stepper.sense * Tick(a, first).stepper.positionMotor
    ensures var b := Tick(a, first);
            MoveCount(Tick(b, second).stepper.sent[|b.stepper.sent|..]) == 0
  {
    var b := Tick(a, first);
    var pos := Target(a);
    var moved := SetPosition(a.stepper, pos);
    assert Target(b) == pos;
    assert moved.positionMotor == b.stepper.positionMotor;
    SettledTickIsQuiet(a, pos, second);
    SameQuery(moved, b.stepper, second);
    TickMovesIff(b, second);
  }

  /** A query's angle depends on the controller only through its sense and resolution. */
  lemma SameQuery(c: Controller, d: Controller, reply: Reply)
    requires c.Valid() && d.Valid()
    requires c.sense == d.sense && c.stepsPerTurn == d.stepsPerTurn
    ensures QueryPosition(c, reply).1 == QueryPosition(d, reply).1
  {
  }

  /** `target_command`: the offset slider reads in multiples of π. */
  function SetManualOffset(a: App, slider: real): (r: App)
    ensures Target(r) == Target(a) - a.offset + slider * Pi
    ensures r.(offset := a.offset) == a
  {
    a.(offset := slider * Pi)
  }

  /** `reset_manual_offset`: the offset is folded into the accumulated offsets
      and the slider returns to zero (which zeroes the offset through
      `target_command`); the target does not move. */
  function Recenter(a: App): (r: App)
    ensures r.offset == 0.0 && Target(r) == Target(a)
    ensures r.(offset := a.offset, offsetOffset := a.offsetOffset) == a
  {
    a.(offsetOffset := a.offsetOffset + a.offset, offset := 0.0)
  }

  /** `_assign_source`: the controller's position is reset, keeping its step
      time, and a new CSV source starting at rotation zero is followed. The
      accumulated offsets are kept, so the target becomes the offsets alone. */
  function AssignSource(a: App, filename: string): (r: App)
    requires a.stepper.Valid()
    ensures r.stepper.Valid() && r.stepper.position == 0.0
    ensures r.stepper.stepTime == a.stepper.stepTime
    ensures |r.stepper.sent| > |a.stepper.sent|
    ensures r.stepper.sent[..|a.stepper.sent| + 1] == a.stepper.sent + [Command.Reset]
    ensures r.stepper == PosReset(a.stepper)
    ensures r.source == OpenCsv(filename) && r.source.Position() == 0.0
    ensures Target(r) == a.offset + a.offsetOffset
    ensures r.offset == a.offset && r.offsetOffset == a.offsetOffset && r.stepTimeFast == a.stepTimeFast
  {
    var stepper := PosReset(a.stepper);
    assert stepper.sent[..|a.stepper.sent| + 1] == a.stepper.sent + [Command.Reset];
    a.(stepper := stepper, source := OpenCsv(filename))
  }

  /** `App.__init__` without its window: a controller on default settings
      (sense 1, microstepping), the synthetic source or a CSV source, both
      offsets at zero, and the one query made to label the motor position.
      The requested step time comes from the speed slider's float arithmetic
      and is taken as given. */
  function Launch(csv: Option<string>, stepTimeFast: int, reply: Reply): (r: App)
    ensures r.stepper.Valid() && r.stepper.stepsPerTurn == 3200 && r.stepper.stepTime == 312
    ensures r.stepper.sent == [Command.Reset, MicrostepOff, MicrostepOn, StepTime(312), Query]
    ensures r.source.Position() == 0.0 && Target(r) == 0.0
    ensures r.source.DummySource? <==> csv.None?
    ensures r.stepper == Send(Init(1, true), [Query]) && r.stepper.sense == 1
    ensures r.offset == 0.0 && r.offsetOffset == 0.0 && r.stepTimeFast == stepTimeFast
    ensures r.source == if csv.Some? then OpenCsv(csv.value) else DummySource(0.0)
  {
    var init := Init(1, true);
    assert init.sent == [Command.Reset, MicrostepOff, MicrostepOn, StepTime(312)];
    var stepper := QueryPosition(init, reply).0;
    assert stepper == Send(init, [Query]);
    var source := if csv.Some? then OpenCsv(csv.value) else DummySource(0.0);
    App(stepper, source, 0.0, 0.0, stepTimeFast)
  }
}

=== FILE: text.dfy ===
/** Character-level splitting used by the CSV row reader and the wire decoder. */
module Text {
  import opened Wrappers

  /** The part of `s` before the first `sep` and the part after it,
      or None when `s` holds no `sep`. */
  function SplitAtFirst(s: string, sep: char): (r: Option<(string, string)>)
    ensures r.Some? <==> sep in s
    ensures r.Some? ==> s == r.value.0 + [sep] + r.value.1 && sep !in r.value.0
  {
    if |s| == 0 then None
    else if s[0] == sep then Some(([], s[1..]))
    else match SplitAtFirst(s[1..], sep)
      case None => None
      case Some(p) =>
        assert s == [s[0]] + s[1..];
        Some(([s[0]] + p.0, p.1))
  }

  /** The split point is unique: a prefix free of `sep` followed by `sep` is what SplitAtFirst finds. */
  lemma {:induction false} SplitAtFirstOf(a: string, sep: char, b: string)
    requires sep !in a
    ensures SplitAtFirst(a + [sep] + b, sep) == Some((a, b))
  {
    var s := a + [sep] + b;
    if |a| == 0 {
      assert s[0] == sep && s[1..] == b;
    } else {
      assert s[0] == a[0] != sep;
      assert s[1..] == a[1..] + [sep] + b;
      SplitAtFirstOf(a[1..], sep, b);
      assert [a[0]] + a[1..] == a;
    }
  }

  /** Fields separated by `sep`, joined back into one string. */
  function Join(parts: seq<string>, sep: char): string
  {
    if |parts| == 0 then ""
    else if |parts| == 1 then parts[0]
    else parts[0] + [sep] + Join(parts[1..], sep)
  }

  /** Python's `s.split(sep)` for a one-character separator: always at least one
      field, no field holds `sep`, and joining the fields gives `s` back. */
  function Split(s: string, sep: char): (r: seq<string>)
    ensures |r| >= 1
    ensures forall i :: 0 <= i < |r| ==> sep !in r[i]
    ensures Join(r, sep) == s
    decreases |s|
  {
    match SplitAtFirst(s, sep)
    case None => [s]
    case Some(p) =>
      var rest := Split(p.1, sep);
      assert Join([p.0] + rest, sep) == p.0 + [sep] + Join(rest, sep) by {
        assert ([p.0] + rest)[1..] == rest;
      }
      [p.0] + rest
  }

  /** The other direction: splitting a join of separator-free fields gives the fields back. */
  lemma {:induction false} SplitJoin(parts: seq<string>, sep: char)
    requires |parts| >= 1
    requires forall i :: 0 <= i < |parts| ==> sep !in parts[i]
    ensures Split(Join(parts, sep), sep) == parts
    decreases |parts|
  {
    if |parts| == 1 {
      assert Join(parts, sep) == parts[0];
    } else {
      var rest := parts[1..];
      assert Join(parts, sep) == parts[0] + [sep] + Join(rest, sep);
      SplitAtFirstOf(parts[0], sep, Join(rest, sep));
      SplitJoin(rest, sep);
      assert parts == [parts[0]] + rest;
    }
  }
}

=== FILE: wrappers.dfy ===
/** The optional value used for "not (yet) available" and "does not parse". */
module Wrappers {

  datatype Option<+T> = None | Some(value: T)
}
